=== FILE: README.md ===
# dcChooserBot core, modelled in Dafny

dcChooserBot is a Discord bot that runs giveaway-style lotteries. A moderator opens a round
with `/new`, users enrol by reacting with a thumbs-up, and `/choose <n>` draws up to `n`
distinct winners. The draw is weighted: each entrant holds one ticket plus the extra tickets
granted by their roles' benefits. Every winner gets a congratulation DM carrying the guild's
"treasure". A winner whose DMs are closed gets the message queued, and it is delivered the next
time they write to the bot. Per-guild settings live in an in-memory store, which is pickled
after every change with the live platform handles replaced by their ids.

The project has six modules, one per file:

- `Types` (`types.dfy`): the id types and the `Option`/`Result` wrappers.
- `Seqs` (`seqs.dfy`): the list operations the source relies on, with their laws. These are
  counting, removing every copy of a value (the source's removal loop) and `list.remove`
  (first occurrence only).
- `Benefits` (`benefits.dfy`): `get_maximum_benefit` and the ticket expansion in
  `get_chosen_weighted`, under both benefit policies. With multiple benefits on, every
  matching role adds its benefit; otherwise only the largest matching benefit counts.
- `Lottery` (`lottery.dfy`): the sampling loop of `get_chosen_weighted`. `Draw` is a recursive
  reference definition. `ChooseWeighted` is the loop itself, proved equal to `Draw`.
  `secrets.randbelow` is an oracle `rand(k, n)` whose only known property is that it answers
  below `n`.
- `Store` (`store.dfy`): the guild store (`get_runtime_data`, `set_runtime_data`,
  `set_rolebenefit`) and the pure part of `save_runtime_data`. A save has two results: the
  state kept in memory and the image written to disk. The file write itself is not modelled.
  `Store.Save` is the corrected save, and the commands are built on it. `Store.SaveAsWritten`
  and `Store.SetRuntimeDataAsWritten` keep the restore loop as written (see Findings).
- `Commands` (`commands.dfy`): `is_management_permitted` and the guard chains of `/new`,
  `/setbenefit` and `/choose`, plus the congratulation DMs and the DM backlog of `on_message`.
  Platform effects are inputs to these members:
  - the id of the posted message;
  - the re-fetched enrolment message with its thumbs-up users;
  - the members found by `fetch_member`, with their role ids;
  - the set of users whose DMs are forbidden.

Python truthiness is modelled by `Store.Truthy`: `None`, `''`, `0` and `{}` are falsy. A
missing key reads as `None`. The configuration flags `RESET_TREASURE`, `REQUIRE_TREASURE` and
`MULTIPLE_BENEFITS` are parameters.

Three behaviours of the code that a reader might expect otherwise; the model follows the code:

- **`/choose` run twice.** `choose` never clears `reference_new`; it only deletes the message.
  A second `/choose` therefore still finds a message handle and goes on to re-read the deleted
  message (main.py:669-676). The model rejects it as `MessageGone`, the branch the code
  intends for a message that cannot be retrieved, not as `NoActiveRound`. The platform's fetch
  raises rather than returning nothing, so the code aborts there without replying (see Left
  out).
- **Order of the amount checks.** An amount of 0 is rejected before the round is examined.
  A negative amount is rejected only after the lobby was found non-empty (main.py:663, 697).
- **Clearing a benefit that is not set.** `set_rolebenefit` with a benefit of 0 pops the role,
  which raises when the role has no benefit set. It is not a silent no-op.

## Model

| member | source | states |
|---|---|---|
| Benefits.MaxBenefit | main.py:330-349 | the result is at least every benefit of a role the member holds, and is either 0 or one of those benefits; with no matching role it is 0 |
| Benefits.MaxBelowSum | main.py:385-405 | the single-highest policy never grants more extra tickets than the sum policy, and strictly fewer once two held roles carry positive benefits |
| Benefits.BenefitExample | main.py:385-405 | for roles [1, 2] with benefits 2 and 5, the highest-benefit policy grants 5 extra tickets and the multiple-benefits policy grants 7 |
| Benefits.Expand | main.py:375-409 | the ticket list starts with the entrant list unchanged; extras are only appended, and only when the benefit table is non-empty |
| Benefits.ExtrasInEntrantOrder | main.py:380-407 | extra tickets are appended entrant by entrant: the extras of a concatenated list are the extras of its parts in order |
| Benefits.ExpandCount | main.py:375-409 | each user holds exactly (their entries) times (one plus their extra tickets) in the expanded list; a negative benefit adds nothing, as `range` of a negative number is empty |
| Benefits.ExpandElems | main.py:375-409 | expansion adds no new users: the same users, and only those, appear before and after |
| Benefits.TicketsOfEntrant | main.py:375-409 | an entrant of a duplicate-free lobby holds 1 ticket without a table or without a member record, otherwise 1 plus the sum (multiple benefits) or 1 plus the maximum of their role benefits. This is the contract of `Benefits.ExtraTickets` (the `if member:` branch, main.py:382-407) and `Benefits.SumBenefits` (the `range(benefit)` loops, main.py:388-397) |
| Seqs.RemoveAll | main.py:439-443 | after removing a chosen user, exactly the other users still hold tickets |
| Seqs.RemoveAllCount | main.py:439-443 | removal deletes every ticket of the chosen user and keeps every other ticket, count for count |
| Seqs.RemoveFirst | main.py:687 | `list.remove` deletes one occurrence: the multiset shrinks by exactly that element, and a duplicate-free list loses the element entirely |
| Seqs.DistinctCardinality | main.py:416-443 | a duplicate-free list has as many distinct values as positions |
| Lottery.ClampAmount | main.py:363-368 | the amount is lowered to the number of entrants when it exceeds it and kept otherwise |
| Lottery.Pick | main.py:420-431 | each draw uses an index within the current ticket list |
| Lottery.SoleTicketIgnoresOracle | main.py:423-428 | with one ticket left the index is 0, whatever the random source would answer |
| Lottery.DrawWinners | main.py:414-447 | a completed draw of n winners returns n distinct users, every one taken from the ticket list |
| Lottery.DrawSucceedsIff | main.py:414-447 | the draw completes exactly when n does not exceed the number of distinct users holding tickets; otherwise it indexes an empty list |
| Lottery.DrawTickets | main.py:414-447 | the sampling loop, which picks an index, records the winner and removes all their tickets, computes exactly the reference draw `Lottery.Draw` (pick, record, remove, repeat n times), including the IndexError on an exhausted list |
| Lottery.ChooseWeighted | main.py:352-447 | the loop computes the reference draw over the expanded tickets. Winners are distinct entrants, as many as the clamped amount (none for amount ≤ 0). It succeeds iff the clamped amount is at most the number of distinct entrants, so always for a duplicate-free lobby |
| Store.Get | main.py:228-241 | the stored value when the guild and key exist, `None` otherwise |
| Store.Save | main.py:117-168 | succeeds iff every handle has an id. Memory keeps the guilds and exactly the truthy attributes, with their values. The image has the same keys, with each channel, role and message handle replaced by its id |
| Store.SaveAsWritten | main.py:117-168 | as written it writes the same image as the corrected save. When handles all have ids, any failure is the KeyError raised after the write, caused by a guild with a modrole and no open round |
| Store.SaveAsWrittenRaises | main.py:162-168 | as written, any guild holding a modrole and no open round makes the save raise KeyError, after the image is written |
| Store.SaveAsWrittenRestores | main.py:158-168 | when the as-written save completes, every guild and attribute comes back as the corrected save gives it, except the open-round reference of a guild without a modrole, which stays a bare id |
| Store.SaveAsWrittenAgreesIff | main.py:162-168 | the as-written restore agrees with the corrected one iff every guild has both a modrole and an open round, or neither |
| Store.SaveAsWrittenRaisesWithoutRound | main.py:166-168 | a concrete store, one guild holding only a modrole: the as-written save raises while the corrected save succeeds |
| Store.SaveAsWrittenStripsReference | main.py:166-168 | for any guild with an open round and no modrole, a successful as-written save leaves the bare message id in memory, and the next save fails unless that id is 0 |
| Store.SaveAsWrittenKeepsMessageId | main.py:166-168 | a guild with an open round and no modrole keeps the bare message id in memory, so the next save fails; the corrected save keeps the handle |
| Store.SaveIdempotent | main.py:117-168 | saving the state a save left in memory yields the same memory and the same image |
| Store.RehydrateAfterSave | main.py:186-208 | for a well-typed store whose open rounds have a channel, reloading the saved image with successful lookups (`Store.Rehydrate`, the resolution loop of `load_runtime_data`) gives back exactly the state kept in memory |
| Store.TreasureSurvivesRestart | main.py:210-225 | a treasure set through the store is read back unchanged after a save and a reload |
| Store.SetRuntimeData | main.py:210-225 | over the corrected save: the key reads back as the value, or `None` when the value is falsy, since the save prunes it. On a pruned store, other guilds and other keys are unchanged. Success is guaranteed when every handle has an id |
| Store.SetRuntimeDataAsWritten | main.py:210-225 | over the save as written: when it completes, it writes the same image as the corrected store. When every handle has an id, its only failure is the restore loop's KeyError, raised after the image is written |
| Store.SetRuntimeDataAsWrittenReadsBack | main.py:160-225 | when the as-written store completes, every attribute of every guild reads as under the corrected store, except the open-round reference of a guild without a modrole. So the stored value reads back (or `None` when falsy), unless it is a new round's message in a guild without a modrole, which reads back as the bare id |
| Store.ReferenceStoredAsIdAsWritten | main.py:486-489 | storing a new round's message, as written, in a guild with a channel and no modrole leaves only the bare message id in memory |
| Store.TreasureRaisesAsWritten | main.py:220-225 | storing a treasure in a guild that holds only a modrole raises as written, while the corrected store succeeds |
| Store.SetRoleBenefit | main.py:244-267 | over the corrected save: a positive benefit upserts the role into the table. A benefit ≤ 0 removes the role, and fails when the role is absent. Other guilds and other keys are unchanged |
| Store.SetRoleBenefitKeepsInvariants | main.py:244-267 | a successful benefit update keeps the store well typed and every stored benefit positive |
| Store.SetRoleBenefitSucceeds | main.py:258-265 | on a well-typed pruned store, an upsert or the removal of a present role always succeeds |
| Store.StoredInvariantsSurviveSave | main.py:131-168 | a save keeps the store well typed and every stored benefit positive |
| Commands.IsManagementPermitted | main.py:292-303 | administrators are always permitted. With a modrole configured, the caller is permitted iff they are an administrator or hold that role. Without one, nobody else is |
| Commands.ModRoleGrantsManagement | main.py:300-301 | once a modrole is stored, the caller is permitted iff they are an administrator or hold that role |
| Commands.NewRound | main.py:464-494 | denied iff not permitted; reports a missing channel iff permitted with no channel set. An opened round stores the posted message as the round's reference and clears the treasure iff the reset flag is on. Other guilds are untouched |
| Commands.NewRoundForgottenAsWritten | main.py:486-489 | for any guild holding just a channel, `/new` as written leaves the bare message id in memory, so the next `/choose` of an administrator answers that no round is open; the corrected store opens the round |
| Commands.NewRoundOpens | main.py:474-489 | on a well-typed pruned store, a permitted `/new` with a channel set always opens a round |
| Commands.SetBenefitCommand | main.py:583-617 | denied iff the caller is not permitted. The invalid-values reply comes iff a permitted caller gives a negative benefit, and the store is not touched. The role-not-found reply comes iff a permitted caller gives a benefit of at least 0 and no role. An update upserts the benefit into the table, or removes the role for 0, keeping the table's other roles. It warns iff the benefit is above 99 and keeps the store's invariants. A permitted request with a role and a benefit of at least 0 is stored through `set_rolebenefit`: the command updates iff that call succeeds, and keeps exactly the state it saves. When that call fails, the command fails with its error; it never answers with the invalid-values reply |
| Commands.ChooseGuard | main.py:646-769 | it proceeds only if the caller is permitted, the required treasure is set, the amount is positive, a round is open, and the re-read message has a thumbs-up reaction that includes the bot. The lobby is the reactors minus one copy of the bot and is non-empty. Each rejection fires exactly when the earlier guards pass and its own test fails, in the source's order: permission, treasure, missing amount, no round, message gone, no thumbs-up reaction, bot not among the reactors, empty lobby, negative amount. Once all of these pass it proceeds with that lobby, the amount and the treasure |
| Commands.Congratulation | main.py:719-723 | the DM starts with the congratulation header, equals the header exactly when no treasure is set, and otherwise ends with the treasure |
| Commands.NotifyWinners | main.py:717-738 | exactly the winners with forbidden DMs get the message queued and a public notice; all other backlog entries are kept |
| Commands.OnMessage | main.py:774-785 | a DM from a user with a queued message is answered with the thanks text followed by that message, and the entry is consumed. Anything else changes nothing |
| Commands.BacklogRedelivered | main.py:725-785 | a winner who could not be messaged receives the congratulation on their next DM to the bot, exactly once |
| Commands.Choose | main.py:646-771 | a rejection by the guard sends nothing and leaves the backlog unchanged. Once the guard passes, the winners are exactly the weighted draw over the lobby with the guild's benefit table, and the choose succeeds iff that draw does. Once the guard passes, the outcome is never a rejection: a failed draw is reported as the draw's error and leaves the backlog unchanged. Winners are distinct lobby members, at most the amount, and get their congratulations queued as in the DM loop, and exactly the winners with forbidden DMs are tagged publicly. A duplicate-free reaction list always yields exactly the clamped amount of winners, never the bot |
| Commands.DrawAndNotify | main.py:697-742 | the winners are exactly the weighted draw (clamp, expand with the benefit table, draw), and it succeeds iff that draw does. Then one congratulation goes to each winner, with the backlog and the public notices exactly those of the DM loop; a failed draw leaves the backlog unchanged |

## Left out

- File I/O: `pickle.dump` and `pickle.load` are not modelled. The written image is a result value of the save.
- `load_runtime_data` is modelled only for the case where every platform lookup succeeds (`Store.Rehydrate`). A lookup that returns `None` or raises is not modelled.
- `load_runtime_data` at main.py:202 tests a variable `channel` left over from an earlier guild of the loop. The model resolves a message only when that guild has a channel of its own.
- The platform is not modelled:
  - posting and deleting messages, adding reactions, the interaction replies and their texts;
  - the public winner announcement;
  - `fetch_member` and the message cache. These appear only as the inputs `members` and `fetched`.
- Logging, `log_probabilities`, `printuser`, `get_interaction_summary`, configuration parsing and the bot token are not modelled. None of them affects the store or the draw.
- The remaining commands are thin wrappers over `Store.SetRuntimeData` and `Store.Get`, behind `Commands.IsManagementPermitted`, and are not modelled separately: `settreasure`, `setuserchannel`, `setmodrole` (administrators only), `getmodrole`, `listbenefits` and `version`.
- Concurrency between the `async` handlers is not modelled. Each command is one atomic step.
- The quality of `secrets.randbelow` is not modelled. The oracle is only known to answer in range.
- Store.Save: when an attribute lacks `.id`, or the as-written restore raises, the source leaves memory partly converted to ids. The model reports the error without that partial state.
- Store.SaveAsWritten: after the KeyError, the memory state depends on dictionary order and is not modelled. The error carries only the image already written.
- Store.BenefitTable: a `rolebenefits` entry that is not a table reads as no table. The commands never store one.
- Commands.TreasureText: a treasure that is not text reads as no treasure. `settreasure` stores only strings.
- Commands.ChooseGuard:
  - the `ValueError` branch of `int(amount)` cannot be reached, because the amount already is an integer;
  - the cached-message lookup and the fetch fallback are merged into the single input `fetched`;
  - a fetch that raises instead of returning `None` counts as `MessageGone`. The platform's `fetch_message` raises `NotFound` for a deleted message, so the code at main.py:676 aborts the command without a reply; the model follows the `if cached_reference_new:` test at main.py:678 as the code intends.
- Commands.NewRound: a stored user channel without `send` is reported as `NewCrashed`. Every channel handle is assumed to post successfully.
- SetRuntimeData (Store.SetRuntimeData): built on the corrected save. As written, `set_runtime_data` raises KeyError after the file is written whenever some guild holds a modrole and no open round (`Store.TreasureRaisesAsWritten`). It also leaves a bare message id in every guild with an open round and no modrole, including guilds other than the one updated (`Store.SaveAsWrittenRestores`). So "other guilds unchanged" and "success when every handle has an id" hold only for the corrected save. `Store.SetRuntimeDataAsWrittenReadsBack` states what the as-written version leaves in memory.
- SetRoleBenefit (Store.SetRoleBenefit): built on the corrected save. As written, the save at main.py:267 raises, or strips other guilds' references, in the same cases as `set_runtime_data`.
- SetRoleBenefitKeepsInvariants (Store.SetRoleBenefitKeepsInvariants): holds for the corrected save only. As written, a bare message id left under `reference_new` breaks the well-typed invariant.
- SetRoleBenefitSucceeds (Store.SetRoleBenefitSucceeds): holds for the corrected save only. As written, `set_rolebenefit` raises KeyError whenever some guild holds a modrole and no open round (`Store.SaveAsWrittenRaises`).
- TreasureSurvivesRestart (Store.TreasureSurvivesRestart): holds for the corrected save only. As written, storing the treasure raises when some guild holds a modrole and no open round (`Store.TreasureRaisesAsWritten`).
- NewRound (Commands.NewRound): built on the corrected save. As written, in a guild without a modrole the stored reference comes back as a bare id, so the round is forgotten (`Commands.NewRoundForgottenAsWritten`). With the reset flag on, the treasure reset raises when some guild holds a modrole and no open round.
- NewRoundOpens (Commands.NewRoundOpens): holds for the corrected save only, for the reasons given under NewRound.
- SetBenefitCommand (Commands.SetBenefitCommand): its clause about keeping the invariants relies on the corrected save, as SetRoleBenefitKeepsInvariants does.
- Benefits.ExtraTickets: an entrant who has left the guild gets no extra tickets, following the `else` branch at main.py:406 as the code intends. The platform's `fetch_member` raises `NotFound` for a non-member instead of returning `None`, so the code at main.py:382 aborts `/choose` after "Choosing and informing…" was sent and before the message is deleted. That abort is not modelled.
- Commands.Choose: the model does not state that exactly the clamped amount is drawn when the reaction list holds duplicates. In that case it states only that the winners are distinct, are lobby members and number at most the amount. The platform never reports a user twice under one reaction.

## Findings

| source | as written | input that shows it | evidently intended | confidence | as-written member | corrected member |
|---|---|---|---|---|---|---|
| main.py:166-168 | the loop that restores `reference_new` iterates `original_roles` (the guilds with a modrole) instead of `original_references` | Guild 1 holds only a modrole: the save raises KeyError after the file is written (`Store.SaveAsWrittenRaisesWithoutRound`). With `RESET_TREASURE` on, a moderator's first `/new` then fails in `set_runtime_data` (`Store.TreasureRaisesAsWritten`, `Store.SaveAsWrittenRaises`). Guild 1 holds a channel and an open round but no modrole: memory keeps the bare message id, and the next save fails on `.id`, and the next `/choose` finds no open round (`Store.SaveAsWrittenKeepsMessageId`, `Commands.NewRoundForgottenAsWritten`) | iterate `original_references`, so that every message handle is restored | high; not executed | Store.SaveAsWritten | Store.Save |

=== FILE: benefits.dfy ===
/**
 * Role benefits: how many extra lottery tickets a candidate receives for the roles they hold,
 * under the two policies selected by the `MultipleBenefits` option, and the expansion of the
 * entrant list into the ticket pool (main.py, `get_maximum_benefit` and the first half of
 * `get_chosen_weighted`).
 */
module Benefits {
  import opened Types
  import opened Seqs

  /** Number of iterations of `range(benefit)`: none for a benefit that is not positive. */
  function Copies(benefit: int): nat
  {
    if benefit > 0 then benefit else 0
  }

  /** A role of the member that has a benefit configured. */
  predicate Matches(roles: seq<RoleId>, table: map<RoleId, int>, i: int)
  {
    0 <= i < |roles| && roles[i] in table
  }

  /**
   * The loop of `get_maximum_benefit` after `tempMax` has been carried over the roles before
   * `roles`: a benefit replaces the running maximum only when it is strictly greater.
   */
  function ScanMax(roles: seq<RoleId>, table: map<RoleId, int>, tempMax: int): (m: int)
    ensures m >= tempMax
    ensures forall i :: Matches(roles, table, i) ==> table[roles[i]] <= m
    ensures m == tempMax || exists i :: Matches(roles, table, i) && table[roles[i]] == m
    decreases |roles|
  {
    if |roles| == 0 then tempMax
    else
      var next := if roles[0] in table && table[roles[0]] > tempMax then table[roles[0]] else tempMax;
      var m := ScanMax(roles[1..], table, next);
      assert forall i :: Matches(roles[1..], table, i) ==> Matches(roles, table, i + 1);
      m
  }

  /** `get_maximum_benefit`: the largest benefit among the member's roles, 0 when none matches. */
  function MaxBenefit(roles: seq<RoleId>, table: map<RoleId, int>): (m: nat)
    ensures forall i :: Matches(roles, table, i) ==> table[roles[i]] <= m
    ensures m == 0 || exists i :: Matches(roles, table, i) && table[roles[i]] == m
    ensures (forall i :: !Matches(roles, table, i)) ==> m == 0
  {
    ScanMax(roles, table, 0)
  }

  /** Under `MultipleBenefits`, every matching role appends `range(benefit)` copies. */
  function SumBenefits(roles: seq<RoleId>, table: map<RoleId, int>): nat
    decreases |roles|
  {
    if |roles| == 0 then 0
    else (if roles[0] in table then Copies(table[roles[0]]) else 0) + SumBenefits(roles[1..], table)
  }

  /**
   * Extra tickets of one entrant: none when the entrant has no member record (the branch for a
   * user who left the guild), otherwise the sum or the maximum of the matching benefits, as
   * `multipleBenefits` selects.
   */
  function ExtraTickets(user: UserId, members: map<UserId, seq<RoleId>>, table: map<RoleId, int>,
                        multipleBenefits: bool): nat
  {
    if user !in members then 0
    else if multipleBenefits then SumBenefits(members[user], table)
    else MaxBenefit(members[user], table)
  }

  /** The extra copies appended after the base list, entrant by entrant. */
  function Extras(users: seq<UserId>, members: map<UserId, seq<RoleId>>, table: map<RoleId, int>,
                  multipleBenefits: bool): seq<UserId>
    decreases |users|
  {
    if |users| == 0 then []
    else Repeat(users[0], ExtraTickets(users[0], members, table, multipleBenefits))
         + Extras(users[1..], members, table, multipleBenefits)
  }

  /**
   * The ticket pool: the entrant list, followed (only when the guild's benefit table is not
   * empty) by each entrant's extra copies in entrant order.
   */
  function Expand(users: seq<UserId>, table: map<RoleId, int>, members: map<UserId, seq<RoleId>>,
                  multipleBenefits: bool): (pool: seq<UserId>)
    ensures |pool| >= |users| && pool[..|users|] == users
  {
    if |table| > 0 then users + Extras(users, members, table, multipleBenefits) else users
  }

  /** Extra tickets of earlier entrants precede those of later entrants. */
  lemma {:induction false} ExtrasInEntrantOrder(a: seq<UserId>, b: seq<UserId>, members: map<UserId, seq<RoleId>>,
                                                table: map<RoleId, int>, multipleBenefits: bool)
    ensures Extras(a + b, members, table, multipleBenefits)
            == Extras(a, members, table, multipleBenefits) + Extras(b, members, table, multipleBenefits)
    decreases |a|
  {
    if |a| == 0 {
      assert a + b == b;
    } else {
      assert (a + b)[0] == a[0] && (a + b)[1..] == a[1..] + b;
      ExtrasInEntrantOrder(a[1..], b, members, table, multipleBenefits);
    }
  }

  /** Total tickets an entrant holds per occurrence in the entrant list. */
  function Tickets(user: UserId, table: map<RoleId, int>, members: map<UserId, seq<RoleId>>,
                   multipleBenefits: bool): nat
  {
    1 + (if |table| > 0 then ExtraTickets(user, members, table, multipleBenefits) else 0)
  }

  lemma {:induction false} ExtrasCount(users: seq<UserId>, members: map<UserId, seq<RoleId>>,
                                       table: map<RoleId, int>, multipleBenefits: bool, u: UserId)
    ensures Count(Extras(users, members, table, multipleBenefits), u)
            == Count(users, u) * ExtraTickets(u, members, table, multipleBenefits)
    decreases |users|
  {
    if |users| > 0 {
      var e := ExtraTickets(users[0], members, table, multipleBenefits);
      var eu := ExtraTickets(u, members, table, multipleBenefits);
      var c := Count(users[1..], u);
      CountAppend(Repeat(users[0], e), Extras(users[1..], members, table, multipleBenefits), u);
      CountRepeat(users[0], e, u);
      ExtrasCount(users[1..], members, table, multipleBenefits, u);
      if users[0] == u {
        assert Count(users, u) == 1 + c;
        Distribute(eu, c);
      } else {
        assert Count(users, u) == c;
      }
    }
  }

  /** Every entrant occupies exactly `Tickets` slots of the pool per entry in the list. */
  lemma {:induction false} ExpandCount(users: seq<UserId>, table: map<RoleId, int>, members: map<UserId, seq<RoleId>>,
                    multipleBenefits: bool, u: UserId)
    ensures Count(Expand(users, table, members, multipleBenefits), u)
            == Count(users, u) * Tickets(u, table, members, multipleBenefits)
  {
    var c := Count(users, u);
    if |table| > 0 {
      var eu := ExtraTickets(u, members, table, multipleBenefits);
      var extras := Extras(users, members, table, multipleBenefits);
      assert Expand(users, table, members, multipleBenefits) == users + extras;
      assert Tickets(u, table, members, multipleBenefits) == 1 + eu;
      CountAppend(users, extras, u);
      ExtrasCount(users, members, table, multipleBenefits, u);
      assert Count(extras, u) == c * eu;
      Distribute(c, eu);
    } else {
      assert Tickets(u, table, members, multipleBenefits) == 1;
    }
  }

  /** The pool holds exactly the entrants: expansion never adds a stranger. */
  lemma {:induction false} ExpandElems(users: seq<UserId>, table: map<RoleId, int>, members: map<UserId, seq<RoleId>>,
                    multipleBenefits: bool)
    ensures forall u :: u in Expand(users, table, members, multipleBenefits) <==> u in users
    ensures Elems(Expand(users, table, members, multipleBenefits)) == Elems(users)
  {
    var pool := Expand(users, table, members, multipleBenefits);
    forall u ensures u in pool <==> u in users {
      ExpandCount(users, table, members, multipleBenefits, u);
    }
  }

  /**
   * Per-entrant ticket counts for a list in which each entrant appears once: a member gets
   * 1 + the sum (or 1 + the maximum) of the matching benefits, a non-member and everyone in a
   * guild without benefit table exactly one.
   */
  lemma {:induction false} TicketsOfEntrant(users: seq<UserId>, table: map<RoleId, int>, members: map<UserId, seq<RoleId>>,
                         multipleBenefits: bool, u: UserId)
    requires NoDuplicates(users) && u in users
    ensures var n := Count(Expand(users, table, members, multipleBenefits), u);
            && (|table| == 0 || u !in members ==> n == 1)
            && (|table| > 0 && u in members && multipleBenefits ==> n == 1 + SumBenefits(members[u], table))
            && (|table| > 0 && u in members && !multipleBenefits ==> n == 1 + MaxBenefit(members[u], table))
  {
    DistinctCount(users, u);
    ExpandCount(users, table, members, multipleBenefits, u);
  }

  lemma {:induction false} DistinctCount(s: seq<UserId>, u: UserId)
    requires NoDuplicates(s) && u in s
    ensures Count(s, u) == 1
    decreases |s|
  {
    if s[0] == u {
      assert u !in s[1..];
    } else {
      DistinctCount(s[1..], u);
    }
  }

  lemma Distribute(a: int, b: int)
    ensures a * (1 + b) == a + a * b && (1 + b) * a == a + b * a
  {
  }

  lemma {:induction false} SumAtLeastOne(roles: seq<RoleId>, table: map<RoleId, int>, i: int)
    requires Matches(roles, table, i)
    ensures Copies(table[roles[i]]) <= SumBenefits(roles, table)
    decreases |roles|
  {
    if i > 0 {
      SumAtLeastOne(roles[1..], table, i - 1);
    }
  }

  lemma {:induction false} SumAtLeastTwo(roles: seq<RoleId>, table: map<RoleId, int>, i: int, j: int)
    requires Matches(roles, table, i) && Matches(roles, table, j) && i != j
    ensures Copies(table[roles[i]]) + Copies(table[roles[j]]) <= SumBenefits(roles, table)
    decreases |roles|
  {
    if i == 0 {
      SumAtLeastOne(roles[1..], table, j - 1);
    } else if j == 0 {
      SumAtLeastOne(roles[1..], table, i - 1);
    } else {
      SumAtLeastTwo(roles[1..], table, i - 1, j - 1);
    }
  }

  /**
   * The highest-only policy never grants more than the sum policy, and grants strictly less
   * as soon as two held roles carry a positive benefit: the maximum is never their sum.
   */
  lemma {:induction false} MaxBelowSum(roles: seq<RoleId>, table: map<RoleId, int>)
    ensures MaxBenefit(roles, table) <= SumBenefits(roles, table)
    ensures (exists i, j :: Matches(roles, table, i) && Matches(roles, table, j) && i != j
                            && table[roles[i]] > 0 && table[roles[j]] > 0)
            ==> MaxBenefit(roles, table) < SumBenefits(roles, table)
  {
    var m := MaxBenefit(roles, table);
    if m > 0 {
      var k :| Matches(roles, table, k) && table[roles[k]] == m;
      SumAtLeastOne(roles, table, k);
      if exists i, j :: Matches(roles, table, i) && Matches(roles, table, j) && i != j
                        && table[roles[i]] > 0 && table[roles[j]] > 0 {
        var i, j :| Matches(roles, table, i) && Matches(roles, table, j) && i != j
                    && table[roles[i]] > 0 && table[roles[j]] > 0;
        var other := if i != k then i else j;
        SumAtLeastTwo(roles, table, k, other);
      }
    }
  }

  /** A member holding roles with benefits 2 and 5 gets 5 extra tickets, or 7 under the sum policy. */
  lemma BenefitExample()
    ensures MaxBenefit([1, 2], map[1 := 2, 2 := 5]) == 5
    ensures SumBenefits([1, 2], map[1 := 2, 2 := 5]) == 7
  {
    var roles: seq<RoleId> := [1, 2];
    var table := map[1 := 2, 2 := 5];
    assert roles[1..] == [2] && roles[1..][1..] == [];
  }
}

=== FILE: commands.dfy ===
/**
 * Decision logic of the slash commands and the direct-message backlog (main.py, `new`,
 * `setbenefit`, `choose`, `on_message`, `is_management_permitted`). Everything the platform
 * does — posting, reacting, deleting, sending DMs — is an input or an outcome here.
 */
module Commands {
  import opened Types
  import opened Seqs
  import opened Store
  import opened Lottery

  /** The invoking user: administrator flag and the ids of the roles they hold. */
  datatype Caller = Caller(isAdministrator: bool, roles: seq<RoleId>)

  /** `is_management_permitted`: an administrator, or a holder of the guild's configured modrole. */
  function IsManagementPermitted(data: RuntimeData, guild: ServerId, caller: Caller): (ok: bool)
    ensures caller.isAdministrator ==> ok
    ensures !caller.isAdministrator && !Get(data, guild, ModRole).RoleRef? ==> !ok
    ensures Get(data, guild, ModRole).RoleRef? ==>
              (ok <==> caller.isAdministrator || Get(data, guild, ModRole).id in caller.roles)
  {
    var modrole := Get(data, guild, ModRole);
    caller.isAdministrator || (modrole.RoleRef? && modrole.id in caller.roles)
  }

  /** After a modrole is configured, exactly administrators and holders of that role may manage. */
  lemma ModRoleGrantsManagement(data: RuntimeData, guild: ServerId, role: RoleId, caller: Caller)
    requires SetRuntimeData(data, guild, ModRole, RoleRef(role)).Success?
    ensures IsManagementPermitted(SetRuntimeData(data, guild, ModRole, RoleRef(role)).value.memory, guild, caller)
            <==> caller.isAdministrator || role in caller.roles
  {
  }

  /** The outcome of `new`. */
  datatype NewOutcome =
    | NewDenied
    | ChannelNotSet
    | NewCrashed(memory: RuntimeData)    // the stored user channel has no `send`
    | NewFailed(error: StoreError)
    | Opened(saved: Saved, channel: int, clearedTreasure: bool)

  function MemoryOf(r: Result<Saved, StoreError>): Result<RuntimeData, StoreError>
  {
    match r
    case Success(sv) => Success(sv.memory)
    case Failure(e) => Failure(e)
  }

  /**
   * `new`: with a user channel configured, optionally clear the treasure, post the enrolment
   * message (whose id the platform returns as `posted`) and remember it as the open round.
   */
  function NewRound(data: RuntimeData, guild: ServerId, caller: Caller, resetTreasure: bool, posted: int): (r: NewOutcome)
    ensures r.NewDenied? <==> !IsManagementPermitted(data, guild, caller)
    ensures r.ChannelNotSet? <==> IsManagementPermitted(data, guild, caller) && !Truthy(Get(data, guild, UserChannel))
    ensures r.Opened? ==> && Get(r.saved.memory, guild, ReferenceNew) == MessageRef(posted)
                          && Get(data, guild, UserChannel) == ChannelRef(r.channel)
                          && r.clearedTreasure == resetTreasure
    ensures r.Opened? && resetTreasure ==> Get(r.saved.memory, guild, Treasure) == NoneValue
    ensures r.Opened? && !resetTreasure && Pruned(data) ==>
              Get(r.saved.memory, guild, Treasure) == Get(data, guild, Treasure)
    ensures r.Opened? && Pruned(data) ==>
              forall t :: t in data && t != guild ==> t in r.saved.memory && r.saved.memory[t] == data[t]
  {
    if !IsManagementPermitted(data, guild, caller) then NewDenied
    else
      var userchannel := Get(data, guild, UserChannel);
      if !Truthy(userchannel) then ChannelNotSet
      else
        var afterReset := if resetTreasure then MemoryOf(SetRuntimeData(data, guild, Treasure, NoneValue))
                          else Success(data);
        match afterReset
        case Failure(e) => NewFailed(e)
        case Success(d) =>
          assert Pruned(data) || resetTreasure ==> Pruned(d);
          if !userchannel.ChannelRef? then NewCrashed(d)
          else
            match SetRuntimeData(d, guild, ReferenceNew, MessageRef(posted))
            case Failure(e) => NewFailed(e)
            case Success(sv) => Opened(sv, userchannel.id, resetTreasure)
  }

  /** On a well-typed pruned store, a permitted `new` with a channel configured opens a round. */
  lemma NewRoundOpens(data: RuntimeData, guild: ServerId, caller: Caller, resetTreasure: bool, posted: int)
    requires WellTyped(data) && Pruned(data)
    requires IsManagementPermitted(data, guild, caller) && Truthy(Get(data, guild, UserChannel))
    ensures NewRound(data, guild, caller, resetTreasure, posted).Opened?
  {
    if resetTreasure {
      assert SetRuntimeData(data, guild, Treasure, NoneValue).Success?;
    }
  }

  /** A round reference that is a bare id is no open round to `choose`, for any caller that passes the setup. */
  lemma BareIdIsNoRound(data: RuntimeData, guild: ServerId, caller: Caller, amount: int, requireTreasure: bool,
                        fetched: Option<Enrolment>, bot: UserId)
    requires Get(data, guild, ReferenceNew).IntValue?
    requires caller.isAdministrator && !requireTreasure && amount != 0
    ensures ChooseGuard(data, guild, caller, amount, requireTreasure, fetched, bot) == Rejected(NoActiveRound)
  {
    assert SetupPasses(data, guild, caller, amount, requireTreasure);
  }

  /**
   * `/new` as written in a guild without a modrole: the saved reference comes back as a bare
   * message id, so the next `/choose` finds no open round, although the corrected store
   * opens it.
   */
  lemma NewRoundForgottenAsWritten(guild: ServerId, channel: int, posted: int, amount: int,
                                   fetched: Option<Enrolment>, bot: UserId)
    requires amount != 0
    ensures var data := map[guild := map[UserChannel := ChannelRef(channel)]];
            var asWritten := SetRuntimeDataAsWritten(data, guild, ReferenceNew, MessageRef(posted));
            && asWritten.Success?
            && Get(asWritten.value.memory, guild, ReferenceNew) == IntValue(posted)
            && ChooseGuard(asWritten.value.memory, guild, Caller(true, []), amount, false, fetched, bot)
               == Rejected(NoActiveRound)
            && NewRound(data, guild, Caller(true, []), false, posted).Opened?
  {
    var data := map[guild := map[UserChannel := ChannelRef(channel)]];
    var admin := Caller(true, []);
    ReferenceStoredAsIdAsWritten(guild, channel, posted);
    var mem := SetRuntimeDataAsWritten(data, guild, ReferenceNew, MessageRef(posted)).value.memory;
    BareIdIsNoRound(mem, guild, admin, amount, false, fetched, bot);
    NewRoundOpens(data, guild, admin, false, posted);
  }

  /** The outcome of `setbenefit`. */
  datatype SetBenefitOutcome =
    | BenefitDenied
    | InvalidBenefit
    | RoleNotFound
    | BenefitFailed(error: StoreError)
    | BenefitUpdated(saved: Saved, highBenefitWarning: bool)

  /**
   * `setbenefit`: a negative benefit is rejected before the store is touched; otherwise the
   * benefit is stored (0 removes it) and a benefit above 99 draws a performance warning.
   */
  function SetBenefitCommand(data: RuntimeData, guild: ServerId, caller: Caller, role: Option<RoleId>,
                             benefit: int): (r: SetBenefitOutcome)
    ensures r == BenefitDenied <==> !IsManagementPermitted(data, guild, caller)
    ensures r == InvalidBenefit <==> IsManagementPermitted(data, guild, caller) && benefit < 0
    ensures r == RoleNotFound <==> IsManagementPermitted(data, guild, caller) && benefit >= 0 && role.None?
    ensures r.BenefitUpdated? && benefit > 0 ==>
              BenefitTable(r.saved.memory, guild) == BenefitTable(data, guild)[role.value := benefit]
    ensures r.BenefitUpdated? && benefit == 0 ==>
              BenefitTable(r.saved.memory, guild) == BenefitTable(data, guild) - {role.value}
    ensures r.BenefitUpdated? ==> benefit >= 0 && role.Some? && r.highBenefitWarning == (benefit > 99)
    ensures r.BenefitUpdated? && benefit == 0 ==> role.value !in BenefitTable(r.saved.memory, guild)
    ensures r.BenefitUpdated? && benefit > 0 ==>
              role.value in BenefitTable(r.saved.memory, guild) && BenefitTable(r.saved.memory, guild)[role.value] == benefit
    ensures r.BenefitUpdated? && WellTyped(data) && PositiveBenefits(data) ==>
              WellTyped(r.saved.memory) && PositiveBenefits(r.saved.memory)
    ensures IsManagementPermitted(data, guild, caller) && benefit >= 0 && role.Some? ==>
              (r.BenefitUpdated? <==> SetRoleBenefit(data, guild, role.value, benefit).Success?)
    ensures r.BenefitUpdated? ==> r.saved == SetRoleBenefit(data, guild, role.value, benefit).value
    ensures r.BenefitFailed? ==> role.Some? && SetRoleBenefit(data, guild, role.value, benefit) == Failure(r.error)
  {
    if !IsManagementPermitted(data, guild, caller) then BenefitDenied
    else if !(benefit > -1) then InvalidBenefit
    else if role.None? then RoleNotFound
    else
      match SetRoleBenefit(data, guild, role.value, benefit)
      case Failure(e) => BenefitFailed(e)
      case Success(sv) =>
        SetRoleBenefitKeepsInvariants(data, guild, role.value, benefit);
        BenefitUpdated(sv, benefit > 99)
  }

  /** The enrolment message as re-read before choosing: the users of its thumbs-up reaction, if any. */
  datatype Enrolment = Enrolment(thumbsUp: Option<seq<UserId>>)

  datatype Rejection =
    | ChooseDenied
    | TreasureRequired
    | AmountMissing
    | NoActiveRound
    | MessageGone          // the enrolment message could not be retrieved
    | NoThumbsUpReaction   // no reaction matched; the command answers nothing
    | BotNotInReactors     // `list.remove` of the bot's own user raises
    | EmptyLobby
    | InvalidAmount

  datatype ChooseDecision = Rejected(reason: Rejection) | Proceed(lobby: seq<UserId>, amount: int, treasure: string)

  /** The stored treasure as text; the empty string when none is set. */
  function TreasureText(v: Value): string
  {
    if v.Text? then v.s else ""
  }

  /** The guards of `choose` that come before the round is looked at: permission, treasure, amount. */
  predicate SetupPasses(data: RuntimeData, guild: ServerId, caller: Caller, amount: int, requireTreasure: bool)
  {
    && IsManagementPermitted(data, guild, caller)
    && (!requireTreasure || Truthy(Get(data, guild, Treasure)))
    && amount != 0
  }

  /** The setup passes, a round is open and its message was re-read with a thumbs-up reaction. */
  predicate ReactorsKnown(data: RuntimeData, guild: ServerId, caller: Caller, amount: int, requireTreasure: bool,
                          fetched: Option<Enrolment>)
  {
    && SetupPasses(data, guild, caller, amount, requireTreasure)
    && Get(data, guild, ReferenceNew).MessageRef?
    && fetched.Some? && fetched.value.thumbsUp.Some?
  }

  /** The guard chain of `choose`, in the source's order, before anything is deleted or sent. */
  function ChooseGuard(data: RuntimeData, guild: ServerId, caller: Caller, amount: int, requireTreasure: bool,
                       fetched: Option<Enrolment>, bot: UserId): (d: ChooseDecision)
    ensures d.Proceed? ==>
              && IsManagementPermitted(data, guild, caller)
              && amount > 0 && d.amount == amount
              && (requireTreasure ==> Truthy(Get(data, guild, Treasure)))
              && d.treasure == TreasureText(Get(data, guild, Treasure))
              && Get(data, guild, ReferenceNew).MessageRef?
              && fetched.Some? && fetched.value.thumbsUp.Some?
              && bot in fetched.value.thumbsUp.value
              && |d.lobby| > 0
              && d.lobby == RemoveFirst(fetched.value.thumbsUp.value, bot)
              && multiset(d.lobby) + multiset{bot} == multiset(fetched.value.thumbsUp.value)
    ensures IsManagementPermitted(data, guild, caller) && requireTreasure && !Truthy(Get(data, guild, Treasure))
            ==> d == Rejected(TreasureRequired)
    ensures (&& IsManagementPermitted(data, guild, caller)
             && (!requireTreasure || Truthy(Get(data, guild, Treasure)))
             && amount == 0)
            ==> d == Rejected(AmountMissing)
    ensures d == Rejected(NoActiveRound) ==> !Get(data, guild, ReferenceNew).MessageRef?
    ensures d == Rejected(InvalidAmount) ==> amount < 0
    ensures d == Rejected(EmptyLobby) ==> fetched.Some? && fetched.value.thumbsUp == Some([bot])
    ensures !IsManagementPermitted(data, guild, caller) ==> d == Rejected(ChooseDenied)
    ensures SetupPasses(data, guild, caller, amount, requireTreasure) && !Get(data, guild, ReferenceNew).MessageRef?
            ==> d == Rejected(NoActiveRound)
    ensures SetupPasses(data, guild, caller, amount, requireTreasure) && Get(data, guild, ReferenceNew).MessageRef?
            && fetched.None?
            ==> d == Rejected(MessageGone)
    ensures SetupPasses(data, guild, caller, amount, requireTreasure) && Get(data, guild, ReferenceNew).MessageRef?
            && fetched.Some? && fetched.value.thumbsUp.None?
            ==> d == Rejected(NoThumbsUpReaction)
    ensures ReactorsKnown(data, guild, caller, amount, requireTreasure, fetched)
            && bot !in fetched.value.thumbsUp.value
            ==> d == Rejected(BotNotInReactors)
    ensures ReactorsKnown(data, guild, caller, amount, requireTreasure, fetched)
            && fetched.value.thumbsUp.value == [bot]
            ==> d == Rejected(EmptyLobby)
    ensures ReactorsKnown(data, guild, caller, amount, requireTreasure, fetched)
            && bot in fetched.value.thumbsUp.value && |fetched.value.thumbsUp.value| > 1 && amount < 0
            ==> d == Rejected(InvalidAmount)
    ensures ReactorsKnown(data, guild, caller, amount, requireTreasure, fetched)
            && bot in fetched.value.thumbsUp.value && |fetched.value.thumbsUp.value| > 1 && amount > 0
            ==> d == Proceed(RemoveFirst(fetched.value.thumbsUp.value, bot), amount,
                             TreasureText(Get(data, guild, Treasure)))
  {
    if !IsManagementPermitted(data, guild, caller) then Rejected(ChooseDenied)
    else
      var treasure := Get(data, guild, Treasure);
      if requireTreasure && !Truthy(treasure) then Rejected(TreasureRequired)
      else if amount == 0 then Rejected(AmountMissing)
      else if !Get(data, guild, ReferenceNew).MessageRef? then Rejected(NoActiveRound)
      else if fetched.None? then Rejected(MessageGone)
      else if fetched.value.thumbsUp.None? then Rejected(NoThumbsUpReaction)
      else
        var reactors := fetched.value.thumbsUp.value;
        if bot !in reactors then Rejected(BotNotInReactors)
        else
          var lobby := RemoveFirst(reactors, bot);
          if |lobby| == 0 then
            assert multiset(reactors) == multiset{bot};
            assert reactors == [bot] by {
              assert |reactors| == 1 && reactors[0] in multiset(reactors);
            }
            Rejected(EmptyLobby)
          else if amount <= 0 then Rejected(InvalidAmount)
          else Proceed(lobby, amount, TreasureText(treasure))
  }

  const CongratsHeader: string := "**Congrats! You were chosen!**"
  const TreasureLabel: string := "\n**Your treasure:** "

  /** The DM text for a winner: the treasure is appended only when one is set. */
  function Congratulation(treasure: string): (msg: string)
    ensures |msg| >= |CongratsHeader| && msg[..|CongratsHeader|] == CongratsHeader
    ensures |treasure| == 0 <==> msg == CongratsHeader
    ensures |treasure| > 0 ==> |msg| > |treasure| && msg[|msg| - |treasure|..] == treasure
  {
    if |treasure| > 0 then CongratsHeader + TreasureLabel + treasure else CongratsHeader
  }

  /** The backlog after notifying winners, and the winners tagged publicly instead. */
  datatype Delivery = Delivery(backlog: map<UserId, string>, publicNotices: seq<UserId>)

  /**
   * The DM loop of `choose`: a winner whose DMs are forbidden gets `msg` queued in the backlog
   * and a public notice; the others are simply messaged.
   */
  function NotifyWinners(backlog: map<UserId, string>, winners: seq<UserId>, forbidden: set<UserId>,
                         msg: string): (d: Delivery)
    ensures d.backlog.Keys == backlog.Keys + (set w | w in winners && w in forbidden)
    ensures forall u :: u in winners && u in forbidden ==> d.backlog[u] == msg
    ensures forall u :: u in backlog && !(u in winners && u in forbidden) ==> d.backlog[u] == backlog[u]
    ensures forall u :: u in d.publicNotices <==> u in winners && u in forbidden
    decreases |winners|
  {
    if |winners| == 0 then Delivery(backlog, [])
    else
      var w := winners[0];
      assert forall u :: u in winners <==> u == w || u in winners[1..];
      if w in forbidden then
        var rest := NotifyWinners(backlog[w := msg], winners[1..], forbidden, msg);
        Delivery(rest.backlog, [w] + rest.publicNotices)
      else
        NotifyWinners(backlog, winners[1..], forbidden, msg)
  }

  const BacklogPreface: string := "Thanks! If you want to, feel free to disable DMs for the server again.\n\n"

  /** The reply sent (if any) and the backlog after a message reaches the bot. */
  datatype DmReply = DmReply(backlog: map<UserId, string>, reply: Option<string>)

  /**
   * `on_message`: a direct message (not from a guild) whose author has a queued message gets
   * it, after a thank-you, and the entry is consumed; anything else changes nothing.
   */
  function OnMessage(backlog: map<UserId, string>, fromGuild: bool, author: UserId): (r: DmReply)
    ensures fromGuild || author !in backlog ==> r == DmReply(backlog, None)
    ensures !fromGuild && author in backlog ==>
              && r.backlog.Keys == backlog.Keys - {author}
              && (forall u :: u in r.backlog ==> r.backlog[u] == backlog[u])
              && r.reply.Some?
              && |r.reply.value| >= |BacklogPreface|
              && r.reply.value[..|BacklogPreface|] == BacklogPreface
              && r.reply.value[|BacklogPreface|..] == backlog[author]
  {
    if !fromGuild && author in backlog then
      DmReply(backlog - {author}, Some(BacklogPreface + backlog[author]))
    else
      DmReply(backlog, None)
  }

  /**
   * A winner who could not be messaged receives the congratulation on their next direct
   * message to the bot, exactly once.
   */
  lemma BacklogRedelivered(backlog: map<UserId, string>, winners: seq<UserId>, forbidden: set<UserId>,
                           msg: string, w: UserId)
    requires w in winners && w in forbidden
    ensures var d := NotifyWinners(backlog, winners, forbidden, msg);
            var first := OnMessage(d.backlog, false, w);
            && first.reply == Some(BacklogPreface + msg)
            && OnMessage(first.backlog, false, w).reply.None?
  {
  }

  datatype ChooseOutcome =
    | ChooseRejected(reason: Rejection)
    | LotteryFailed(error: DrawError)
    | Chosen(winners: seq<UserId>, publicNotices: seq<UserId>)

  /**
   * `choose` end to end: the guard chain, the weighted lottery over the lobby with the guild's
   * benefit table, then the congratulation DMs with their backlog fallback. `members` maps the
   * users `fetch_member` finds to their role ids; `forbidden` holds the winners whose DMs fail.
   */
  method Choose(data: RuntimeData, guild: ServerId, caller: Caller, amount: int, requireTreasure: bool,
                multipleBenefits: bool, fetched: Option<Enrolment>, bot: UserId,
                members: map<UserId, seq<RoleId>>, forbidden: set<UserId>, backlog: map<UserId, string>,
                rand: (nat, nat) -> nat)
    returns (outcome: ChooseOutcome, newBacklog: map<UserId, string>)
    requires OracleBounded(rand)
    ensures ChooseGuard(data, guild, caller, amount, requireTreasure, fetched, bot).Rejected? ==>
              && outcome == ChooseRejected(ChooseGuard(data, guild, caller, amount, requireTreasure, fetched, bot).reason)
              && newBacklog == backlog
    ensures outcome.Chosen? ==> ChooseGuard(data, guild, caller, amount, requireTreasure, fetched, bot).Proceed?
    ensures outcome.Chosen? ==>
              && NoDuplicates(outcome.winners)
              && (forall w :: w in outcome.winners ==>
                    w in ChooseGuard(data, guild, caller, amount, requireTreasure, fetched, bot).lobby)
              && 0 < |outcome.winners| <= amount
    ensures outcome.Chosen? ==>
              newBacklog == NotifyWinners(backlog, outcome.winners, forbidden,
                Congratulation(ChooseGuard(data, guild, caller, amount, requireTreasure, fetched, bot).treasure)).backlog
    ensures var d := ChooseGuard(data, guild, caller, amount, requireTreasure, fetched, bot);
            d.Proceed? ==>
              (outcome.Chosen?
               <==> WeightedDraw(d.lobby, d.amount, BenefitTable(data, guild), members, multipleBenefits, rand).Success?)
    ensures var d := ChooseGuard(data, guild, caller, amount, requireTreasure, fetched, bot);
            outcome.Chosen? ==>
              Success(outcome.winners)
              == WeightedDraw(d.lobby, d.amount, BenefitTable(data, guild), members, multipleBenefits, rand)
    ensures outcome.LotteryFailed? ==> newBacklog == backlog
    ensures ChooseGuard(data, guild, caller, amount, requireTreasure, fetched, bot).Proceed? ==> !outcome.ChooseRejected?
    ensures outcome.Chosen? ==>
              outcome.publicNotices
              == NotifyWinners(backlog, outcome.winners, forbidden,
                   Congratulation(ChooseGuard(data, guild, caller, amount, requireTreasure, fetched, bot).treasure)).publicNotices
    ensures ChooseGuard(data, guild, caller, amount, requireTreasure, fetched, bot).Proceed?
            && NoDuplicates(fetched.value.thumbsUp.value) ==>
              && outcome.Chosen?
              && |outcome.winners|
                 == ClampAmount(amount, |ChooseGuard(data, guild, caller, amount, requireTreasure, fetched, bot).lobby|)
              && bot !in outcome.winners
  {
    var d := ChooseGuard(data, guild, caller, amount, requireTreasure, fetched, bot);
    if d.Rejected? {
      return ChooseRejected(d.reason), backlog;
    }
    outcome, newBacklog := DrawAndNotify(d.lobby, d.amount, d.treasure, BenefitTable(data, guild), members,
                                         multipleBenefits, forbidden, backlog, rand);
  }

  /**
   * The part of `choose` after the guards: the weighted lottery over the lobby, then one
   * congratulation DM per winner in the order drawn.
   */
  method DrawAndNotify(lobby: seq<UserId>, amount: int, treasure: string, table: map<RoleId, int>,
                       members: map<UserId, seq<RoleId>>, multipleBenefits: bool, forbidden: set<UserId>,
                       backlog: map<UserId, string>, rand: (nat, nat) -> nat)
    returns (outcome: ChooseOutcome, newBacklog: map<UserId, string>)
    requires OracleBounded(rand) && amount > 0 && |lobby| > 0
    ensures !outcome.ChooseRejected?
    ensures outcome.Chosen? ==>
              && NoDuplicates(outcome.winners)
              && (forall w :: w in outcome.winners ==> w in lobby)
              && 0 < |outcome.winners| <= amount
              && newBacklog == NotifyWinners(backlog, outcome.winners, forbidden, Congratulation(treasure)).backlog
    ensures NoDuplicates(lobby) ==> outcome.Chosen? && |outcome.winners| == ClampAmount(amount, |lobby|)
    ensures outcome.Chosen? <==> WeightedDraw(lobby, amount, table, members, multipleBenefits, rand).Success?
    ensures outcome.Chosen? ==>
              Success(outcome.winners) == WeightedDraw(lobby, amount, table, members, multipleBenefits, rand)
    ensures outcome.LotteryFailed? ==> newBacklog == backlog
    ensures outcome.Chosen? ==>
              outcome.publicNotices == NotifyWinners(backlog, outcome.winners, forbidden, Congratulation(treasure)).publicNotices
  {
    var r := ChooseWeighted(lobby, amount, table, members, multipleBenefits, rand);
    if r.Failure? {
      return LotteryFailed(r.error), backlog;
    }
    var winners := r.value;
    var delivery := NotifyWinners(backlog, winners, forbidden, Congratulation(treasure));
    outcome := Chosen(winners, delivery.publicNotices);
    newBacklog := delivery.backlog;
  }
}

=== FILE: lottery.dfy ===
/**
 * Weighted sampling without replacement (main.py, `get_chosen_weighted`).
 *
 * The cryptographic source `secrets.randbelow` is an oracle `rand`: the k-th draw over a pool
 * of n tickets asks `rand(k, n)`, and all the model knows of the answer is that it lies in
 * [0, n - 1].
 */
module Lottery {
  import opened Types
  import opened Seqs
  import opened Benefits

  /** `choose_list[0]` on an exhausted ticket list. */
  datatype DrawError = IndexError

  /** What `secrets.randbelow` promises: an index below its bound. */
  ghost predicate OracleBounded(rand: (nat, nat) -> nat)
  {
    forall k: nat, n: nat :: 0 < n ==> rand(k, n) < n
  }

  /** The requested amount, lowered to the number of entries when more were requested. */
  function ClampAmount(amount: int, entries: nat): (amt: int)
    ensures amt <= entries && amt <= amount
    ensures amt == amount || amt == entries
  {
    if amount > entries then entries else amount
  }

  /**
   * The index of the k-th draw: the oracle is consulted only when more than one ticket is
   * left; with a single ticket the index defaults to 0.
   */
  function Pick(pool: seq<UserId>, k: nat, rand: (nat, nat) -> nat): (i: nat)
    requires OracleBounded(rand) && |pool| > 0
    ensures i < |pool|
  {
    var upper := |pool| - 1;
    if upper > 0 then rand(k, upper + 1) else 0
  }

  /** With a single ticket left the draw does not depend on the oracle at all. */
  lemma SoleTicketIgnoresOracle(pool: seq<UserId>, k: nat, rand1: (nat, nat) -> nat, rand2: (nat, nat) -> nat)
    requires OracleBounded(rand1) && OracleBounded(rand2) && |pool| == 1
    ensures Pick(pool, k, rand1) == Pick(pool, k, rand2) == 0
  {
  }

  /** Prefix already drawn winners to the outcome of the remaining draws. */
  function Prepend(chosen: seq<UserId>, rest: Result<seq<UserId>, DrawError>): (r: Result<seq<UserId>, DrawError>)
    ensures chosen == [] ==> r == rest
  {
    match rest
    case Success(ws) =>
      assert chosen == [] ==> chosen + ws == ws;
      Success(chosen + ws)
    case Failure(e) => Failure(e)
  }

  lemma PrependTwice(a: seq<UserId>, b: seq<UserId>, rest: Result<seq<UserId>, DrawError>)
    ensures Prepend(a, Prepend(b, rest)) == Prepend(a + b, rest)
  {
    if rest.Success? {
      assert a + (b + rest.value) == (a + b) + rest.value;
    }
  }

  /**
   * Reference definition of the sampling loop: `n` more winners are drawn from `pool`,
   * the k-th draw taking the ticket at `Pick`, and every copy of a winner is removed before
   * the next draw. Drawing from an empty list fails like the source's indexing.
   */
  function Draw(pool: seq<UserId>, n: int, k: nat, rand: (nat, nat) -> nat): Result<seq<UserId>, DrawError>
    requires OracleBounded(rand)
    decreases if n > 0 then n else 0
  {
    if n <= 0 then Success([])
    else if |pool| == 0 then Failure(IndexError)
    else
      var u := pool[Pick(pool, k, rand)];
      Prepend([u], Draw(RemoveAll(pool, u), n - 1, k + 1, rand))
  }

  /** The whole lottery of `get_chosen_weighted` as one reference: clamp, expand, then draw. */
  function WeightedDraw(lobby: seq<UserId>, amount: int, table: map<RoleId, int>,
                        members: map<UserId, seq<RoleId>>, multipleBenefits: bool,
                        rand: (nat, nat) -> nat): Result<seq<UserId>, DrawError>
    requires OracleBounded(rand)
  {
    Draw(Expand(lobby, table, members, multipleBenefits), ClampAmount(amount, |lobby|), 0, rand)
  }

  /**
   * Winners of a successful draw are pairwise distinct, all come from the pool, and there
   * are exactly as many as were asked for.
   */
  lemma {:induction false} DrawWinners(pool: seq<UserId>, n: int, k: nat, rand: (nat, nat) -> nat)
    requires OracleBounded(rand)
    ensures var r := Draw(pool, n, k, rand);
            r.Success? ==> && NoDuplicates(r.value)
                           && (forall w :: w in r.value ==> w in pool)
                           && |r.value| == (if n > 0 then n else 0)
    decreases if n > 0 then n else 0
  {
    if n > 0 && |pool| > 0 {
      var u := pool[Pick(pool, k, rand)];
      var rest := RemoveAll(pool, u);
      DrawWinners(rest, n - 1, k + 1, rand);
      var r := Draw(rest, n - 1, k + 1, rand);
      if r.Success? {
        var ws := [u] + r.value;
        forall i, j | 0 <= i < j < |ws| ensures ws[i] != ws[j] {
          if i == 0 {
            assert ws[j] in r.value;
          } else {
            assert ws[i] == r.value[i - 1] && ws[j] == r.value[j - 1];
          }
        }
      }
    }
  }

  /**
   * The draw succeeds exactly when no more winners are asked for than there are distinct
   * users in the pool: each draw retires one distinct user.
   */
  lemma {:induction false} DrawSucceedsIff(pool: seq<UserId>, n: int, k: nat, rand: (nat, nat) -> nat)
    requires OracleBounded(rand)
    ensures Draw(pool, n, k, rand).Success? <==> n <= |Elems(pool)|
    decreases if n > 0 then n else 0
  {
    if n > 0 {
      if |pool| == 0 {
        assert Draw(pool, n, k, rand) == Failure(IndexError);
        assert |Elems(pool)| == 0 by {
          assert Elems(pool) == {};
        }
      } else {
        var u := pool[Pick(pool, k, rand)];
        var rest := RemoveAll(pool, u);
        var inner := Draw(rest, n - 1, k + 1, rand);
        assert Draw(pool, n, k, rand) == Prepend([u], inner);
        assert Prepend([u], inner).Success? <==> inner.Success?;
        ElemsRemoveAll(pool, u);
        DrawSucceedsIff(rest, n - 1, k + 1, rand);
      }
    }
  }

  /** Removing every copy of a present user retires exactly one distinct user. */
  lemma ElemsRemoveAll(pool: seq<UserId>, u: UserId)
    requires u in pool
    ensures |Elems(RemoveAll(pool, u))| + 1 == |Elems(pool)|
  {
    var rest := RemoveAll(pool, u);
    assert Elems(rest) == Elems(pool) - {u};
    assert Elems(pool) == Elems(rest) + {u};
  }

  /** One unfolding of `Draw` over a non-empty pool. */
  lemma DrawStep(pool: seq<UserId>, n: int, k: nat, rand: (nat, nat) -> nat)
    requires OracleBounded(rand) && n > 0 && |pool| > 0
    ensures var u := pool[Pick(pool, k, rand)];
            Draw(pool, n, k, rand) == Prepend([u], Draw(RemoveAll(pool, u), n - 1, k + 1, rand))
  {
  }

  /** The loop's step: drawing one more winner keeps the already chosen prefix in front. */
  lemma DrawAfter(chosen: seq<UserId>, pool: seq<UserId>, n: int, k: nat, rand: (nat, nat) -> nat)
    requires OracleBounded(rand) && n > 0 && |pool| > 0
    ensures var u := pool[Pick(pool, k, rand)];
            Prepend(chosen, Draw(pool, n, k, rand))
            == Prepend(chosen + [u], Draw(RemoveAll(pool, u), n - 1, k + 1, rand))
  {
    var u := pool[Pick(pool, k, rand)];
    var rest := Draw(RemoveAll(pool, u), n - 1, k + 1, rand);
    DrawStep(pool, n, k, rand);
    PrependTwice(chosen, [u], rest);
  }

  /** What the draw over the expanded entrant list guarantees, stated on the entrant list. */
  lemma DrawOverEntrants(chooseList: seq<UserId>, amt: int, table: map<RoleId, int>,
                         members: map<UserId, seq<RoleId>>, multipleBenefits: bool,
                         rand: (nat, nat) -> nat)
    requires OracleBounded(rand) && amt <= |chooseList|
    ensures var r := Draw(Expand(chooseList, table, members, multipleBenefits), amt, 0, rand);
            && (r.Success? ==> && NoDuplicates(r.value)
                               && (forall w :: w in r.value ==> w in chooseList)
                               && |r.value| == (if amt <= 0 then 0 else amt))
            && (r.Success? <==> amt <= |Elems(chooseList)|)
            && (NoDuplicates(chooseList) ==> r.Success?)
  {
    var pool := Expand(chooseList, table, members, multipleBenefits);
    DrawWinners(pool, amt, 0, rand);
    DrawSucceedsIff(pool, amt, 0, rand);
    ExpandElems(chooseList, table, members, multipleBenefits);
    if NoDuplicates(chooseList) {
      DistinctCardinality(chooseList);
    }
  }

  /**
   * The sampling loop of `get_chosen_weighted`: until enough winners are chosen, pick an
   * index into the remaining tickets and remove every ticket of the user found there.
   */
  method DrawTickets(tickets: seq<UserId>, amt: int, rand: (nat, nat) -> nat)
    returns (r: Result<seq<UserId>, DrawError>)
    requires OracleBounded(rand)
    ensures r == Draw(tickets, amt, 0, rand)
  {
    var pool := tickets;
    ghost var outcome := Draw(pool, amt, 0, rand);
    var chosen: seq<UserId> := [];
    while |chosen| < amt
      invariant Prepend(chosen, Draw(pool, amt - |chosen|, |chosen|, rand)) == outcome
      decreases amt - |chosen|
    {
      var upper := |pool| - 1;
      if upper < 0 {
        // `choose_list[0]` raises on the exhausted list
        return Failure(IndexError);
      }
      var randomIndex := 0;
      if upper > 0 {
        randomIndex := rand(|chosen|, upper + 1);
      }
      var chosenUser := pool[randomIndex];
      DrawAfter(chosen, pool, amt - |chosen|, |chosen|, rand);
      chosen := chosen + [chosenUser];
      pool := RemoveAll(pool, chosenUser);
    }
    assert chosen + [] == chosen;
    r := Success(chosen);
  }

  /**
   * `get_chosen_weighted`: clamp the amount to the number of entrants, expand the entrants
   * into the ticket pool (base entries first, then each entrant's extra tickets), then draw
   * until enough distinct winners are chosen.
   */
  method ChooseWeighted(chooseList: seq<UserId>, amount: int, table: map<RoleId, int>,
                        members: map<UserId, seq<RoleId>>, multipleBenefits: bool,
                        rand: (nat, nat) -> nat)
    returns (r: Result<seq<UserId>, DrawError>)
    requires OracleBounded(rand)
    ensures r == WeightedDraw(chooseList, amount, table, members, multipleBenefits, rand)
    ensures r.Success? ==> && NoDuplicates(r.value)
                           && (forall w :: w in r.value ==> w in chooseList)
                           && |r.value| == (if amount <= 0 then 0 else ClampAmount(amount, |chooseList|))
    ensures r.Success? <==> ClampAmount(amount, |chooseList|) <= |Elems(chooseList)|
    ensures NoDuplicates(chooseList) ==> r.Success?
  {
    var amt := ClampAmount(amount, |chooseList|);
    DrawOverEntrants(chooseList, amt, table, members, multipleBenefits, rand);
    r := DrawTickets(Expand(chooseList, table, members, multipleBenefits), amt, rand);
  }
}

=== FILE: seqs.dfy ===
/** Sequence helpers: occurrence counts, removal of every copy of a value, distinctness. */
module Seqs {

  /** Number of occurrences of `x` in `s`. */
  function Count<T(==)>(s: seq<T>, x: T): (n: nat)
    ensures n <= |s|
    ensures n == 0 <==> x !in s
  {
    if |s| == 0 then 0 else (if s[0] == x then 1 else 0) + Count(s[1..], x)
  }

  /** The set of values occurring in `s`. */
  function Elems<T>(s: seq<T>): set<T>
  {
    set x | x in s
  }

  /** No value occurs twice in `s`. */
  predicate NoDuplicates<T(==)>(s: seq<T>)
  {
    forall i, j :: 0 <= i < j < |s| ==> s[i] != s[j]
  }

  /** `n` copies of `x`. */
  function Repeat<T>(x: T, n: nat): (r: seq<T>)
    ensures |r| == n
    ensures forall i :: 0 <= i < n ==> r[i] == x
  {
    seq(n, _ => x)
  }

  /** `s` with every occurrence of `x` removed, the others kept in order. */
  function RemoveAll<T(==,!new)>(s: seq<T>, x: T): (r: seq<T>)
    ensures x !in r
    ensures forall y :: y in r <==> y in s && y != x
  {
    if |s| == 0 then []
    else if s[0] == x then RemoveAll(s[1..], x)
    else [s[0]] + RemoveAll(s[1..], x)
  }

  /** Removal deletes exactly the copies of `x` and keeps every other value, count for count. */
  lemma {:induction false} RemoveAllCount<T(!new)>(s: seq<T>, x: T)
    ensures Count(RemoveAll(s, x), x) == 0
    ensures forall y :: y != x ==> Count(RemoveAll(s, x), y) == Count(s, y)
    ensures |RemoveAll(s, x)| + Count(s, x) == |s|
    decreases |s|
  {
    if |s| > 0 {
      RemoveAllCount(s[1..], x);
      if s[0] != x {
        assert ([s[0]] + RemoveAll(s[1..], x))[1..] == RemoveAll(s[1..], x);
      }
    }
  }

  /** `s` with the first occurrence of `x` removed (Python's `list.remove`). */
  function RemoveFirst<T(==)>(s: seq<T>, x: T): (r: seq<T>)
    requires x in s
    ensures |r| + 1 == |s|
    ensures multiset(r) + multiset{x} == multiset(s)
    ensures forall y :: y in r ==> y in s
    ensures NoDuplicates(s) ==> NoDuplicates(r) && x !in r
  {
    assert s == [s[0]] + s[1..];
    if s[0] == x then s[1..]
    else
      var rest := RemoveFirst(s[1..], x);
      assert NoDuplicates(s) ==> NoDuplicates([s[0]] + rest) by {
        if NoDuplicates(s) {
          assert s[0] !in s[1..];
          DistinctCons(s[0], rest);
        }
      }
      [s[0]] + rest
  }

  lemma DistinctCons<T>(a: T, r: seq<T>)
    requires a !in r && NoDuplicates(r)
    ensures NoDuplicates([a] + r)
  {
    var s := [a] + r;
    forall i, j | 0 <= i < j < |s| ensures s[i] != s[j] {
      assert s[j] == r[j - 1];
      if i > 0 {
        assert s[i] == r[i - 1];
      }
    }
  }

  lemma {:induction false} CountAppend<T>(a: seq<T>, b: seq<T>, x: T)
    ensures Count(a + b, x) == Count(a, x) + Count(b, x)
    decreases |a|
  {
    if |a| == 0 {
      assert a + b == b;
    } else {
      assert (a + b)[1..] == a[1..] + b;
      CountAppend(a[1..], b, x);
    }
  }

  lemma {:induction false} CountRepeat<T>(y: T, n: nat, x: T)
    ensures Count(Repeat(y, n), x) == (if x == y then n else 0)
    decreases n
  {
    if n > 0 {
      assert Repeat(y, n)[1..] == Repeat(y, n - 1);
      CountRepeat(y, n - 1, x);
    }
  }

  /** A sequence without duplicates has as many distinct values as positions. */
  lemma {:induction false} DistinctCardinality<T>(s: seq<T>)
    requires NoDuplicates(s)
    ensures |Elems(s)| == |s|
    decreases |s|
  {
    if |s| > 0 {
      assert Elems(s) == {s[0]} + Elems(s[1..]);
      assert s[0] !in Elems(s[1..]);
      DistinctCardinality(s[1..]);
    }
  }
}

=== FILE: store.dfy ===
/**
 * The guild store `runtime_data` (main.py, `set_runtime_data`, `get_runtime_data`,
 * `set_rolebenefit` and the in-memory part of `save_runtime_data`).
 *
 * Each guild maps the keys the bot uses to values. Channels, roles and messages are live
 * handles that carry an id; the persisted image replaces them by that id.
 */
module Store {
  import opened Types

  /** The five keys the bot stores: 'userchannel', 'modrole', 'reference_new', 'treasure', 'rolebenefits'. */
  datatype Key = UserChannel | ModRole | ReferenceNew | Treasure | RoleBenefits

  /** A stored Python value. */
  datatype Value =
    | NoneValue
    | Text(s: string)
    | IntValue(n: int)
    | Table(benefits: map<RoleId, int>)
    | ChannelRef(id: int)
    | RoleRef(id: int)
    | MessageRef(id: int)

  type GuildData = map<Key, Value>
  type RuntimeData = map<ServerId, GuildData>

  /** Python truthiness: None, '', 0 and {} are falsy; live handles are truthy. */
  predicate Truthy(v: Value)
  {
    match v
    case NoneValue => false
    case Text(s) => |s| > 0
    case IntValue(n) => n != 0
    case Table(b) => |b| > 0
    case _ => true
  }

  /** A live platform object, which has an `.id` attribute. */
  predicate HasId(v: Value)
  {
    v.ChannelRef? || v.RoleRef? || v.MessageRef?
  }

  /** Keys whose value is swapped for its id before writing. */
  predicate IsHandleKey(k: Key)
  {
    k == UserChannel || k == ModRole || k == ReferenceNew
  }

  /** The guild holds a truthy value under `k`, one that survives pruning. */
  predicate HasEntry(data: RuntimeData, s: ServerId, k: Key)
  {
    s in data && k in data[s] && Truthy(data[s][k])
  }

  /** The shape each key is given by the commands (`None` being allowed before pruning). */
  predicate FitsKey(k: Key, v: Value)
  {
    v.NoneValue? ||
    match k
    case UserChannel => v.ChannelRef?
    case ModRole => v.RoleRef?
    case ReferenceNew => v.MessageRef?
    case Treasure => v.Text?
    case RoleBenefits => v.Table?
  }

  predicate WellTyped(data: RuntimeData)
  {
    forall s, k :: s in data && k in data[s] ==> FitsKey(k, data[s][k])
  }

  /** No stored attribute is falsy. */
  predicate Pruned(data: RuntimeData)
  {
    forall s, k :: s in data && k in data[s] ==> Truthy(data[s][k])
  }

  /** Every stored benefit is positive. */
  predicate PositiveBenefits(data: RuntimeData)
  {
    forall s, r ::
      s in data && RoleBenefits in data[s] && data[s][RoleBenefits].Table? && r in data[s][RoleBenefits].benefits
      ==> data[s][RoleBenefits].benefits[r] > 0
  }

  /** `get_runtime_data`: the stored value, or `None` when the guild or the key is absent. */
  function Get(data: RuntimeData, s: ServerId, k: Key): (v: Value)
    ensures s !in data || k !in data[s] ==> v == NoneValue
    ensures s in data && k in data[s] ==> v == data[s][k]
  {
    if s in data && k in data[s] then data[s][k] else NoneValue
  }

  /** The guild's benefit table, empty when none is stored. */
  function BenefitTable(data: RuntimeData, s: ServerId): map<RoleId, int>
  {
    var v := Get(data, s, RoleBenefits);
    if v.Table? then v.benefits else map[]
  }

  /** The guild's entry, created empty if it does not exist yet. */
  function EnsureGuild(data: RuntimeData, s: ServerId): (d: RuntimeData)
    ensures s in d && d.Keys == data.Keys + {s}
    ensures forall t :: t in data ==> d[t] == data[t]
    ensures s !in data ==> d[s] == map[]
  {
    if s in data then data else data[s := map[]]
  }

  function PruneGuild(g: GuildData): GuildData
  {
    map k | k in g && Truthy(g[k]) :: g[k]
  }

  /** The first loop of `save_runtime_data`: pop every falsy attribute (guilds themselves stay). */
  function Prune(data: RuntimeData): RuntimeData
  {
    map s | s in data :: PruneGuild(data[s])
  }

  /** Every value under a handle key has an `.id` to swap in. */
  predicate IdsAvailable(data: RuntimeData)
  {
    forall s, k :: s in data && k in data[s] && IsHandleKey(k) && Truthy(data[s][k]) ==> HasId(data[s][k])
  }

  function PersistGuild(g: GuildData): GuildData
    requires forall k :: k in g && IsHandleKey(k) ==> HasId(g[k])
  {
    map k | k in g :: if IsHandleKey(k) then assert HasId(g[k]); IntValue(g[k].id) else g[k]
  }

  /** The second loop of `save_runtime_data`: the image written to disk. */
  function Persist(p: RuntimeData): RuntimeData
    requires forall s, k :: s in p && k in p[s] && IsHandleKey(k) ==> HasId(p[s][k])
  {
    map s | s in p :: PersistGuild(p[s])
  }

  /** A completed save: the state kept in memory and the image written to disk. */
  datatype Saved = Saved(memory: RuntimeData, image: RuntimeData)

  datatype StoreError =
    | NoIdAttribute                    // `value.id` on a value that is not a live handle
    | MissingReference(image: RuntimeData) // KeyError in the restore loop, after the image was written
    | MissingKey(memory: RuntimeData)  // KeyError from `pop`; the guild entry may have been created
    | NotATable                        // the 'rolebenefits' entry is not a dict

  /**
   * `save_runtime_data` with the restore loop iterating the saved references: prune the falsy
   * attributes, write the image with each handle replaced by its id, and give every handle back.
   */
  function Save(data: RuntimeData): (r: Result<Saved, StoreError>)
    ensures r.Success? <==> IdsAvailable(data)
    ensures r.Success? ==> r.value.memory.Keys == data.Keys && r.value.image.Keys == data.Keys
    ensures r.Success? ==> forall s, k :: s in data ==>
              (k in r.value.memory[s] <==> k in data[s] && Truthy(data[s][k]))
    ensures r.Success? ==> forall s, k :: s in data && k in r.value.memory[s] ==>
              r.value.memory[s][k] == data[s][k]
    ensures r.Success? ==> forall s :: s in data ==> r.value.image[s].Keys == r.value.memory[s].Keys
    ensures r.Success? ==> forall s, k :: s in data && k in r.value.image[s] ==>
              r.value.image[s][k] == (if IsHandleKey(k) then IntValue(data[s][k].id) else data[s][k])
  {
    var p := Prune(data);
    if IdsAvailable(data) then
      assert forall s :: s in p ==> p[s] == PruneGuild(data[s]);
      Success(Saved(p, Persist(p)))
    else
      Failure(NoIdAttribute)
  }

  /**
   * `save_runtime_data` as written: the restore loop for 'reference_new' iterates the guilds
   * that had a 'modrole'. A guild with a modrole and no reference raises KeyError after the
   * image is written; a guild with a reference and no modrole keeps the id in memory.
   */
  function SaveAsWritten(data: RuntimeData): (r: Result<Saved, StoreError>)
    ensures r.Success? ==> Save(data).Success? && r.value.image == Save(data).value.image
    ensures r.Failure? && IdsAvailable(data) ==>
              && r.error.MissingReference?
              && r.error.image == Save(data).value.image
              && exists s :: HasEntry(data, s, ModRole) && !HasEntry(data, s, ReferenceNew)
  {
    var p := Prune(data);
    if !IdsAvailable(data) then Failure(NoIdAttribute)
    else
      var image := Persist(p);
      if exists s :: s in p && ModRole in p[s] && ReferenceNew !in p[s] then
        var s :| s in p && ModRole in p[s] && ReferenceNew !in p[s];
        assert HasEntry(data, s, ModRole) && !HasEntry(data, s, ReferenceNew);
        Failure(MissingReference(image))
      else
        Success(Saved(map s | s in p :: if ReferenceNew in p[s] && ModRole !in p[s]
                                          then p[s][ReferenceNew := image[s][ReferenceNew]]
                                          else p[s],
                      image))
  }

  /** `set_runtime_data`: create the guild entry if needed, store the value, then save. */
  function SetRuntimeData(data: RuntimeData, s: ServerId, k: Key, v: Value): (r: Result<Saved, StoreError>)
    ensures r.Success? ==> Get(r.value.memory, s, k) == (if Truthy(v) then v else NoneValue)
    ensures r.Success? ==> s in r.value.memory
    ensures r.Success? && Pruned(data) ==>
              && (forall t :: t in data && t != s ==> t in r.value.memory && r.value.memory[t] == data[t])
              && (forall j :: j != k ==> Get(r.value.memory, s, j) == Get(data, s, j))
    ensures IdsAvailable(data) && (IsHandleKey(k) && Truthy(v) ==> HasId(v)) ==> r.Success?
  {
    var d := EnsureGuild(data, s);
    Save(d[s := d[s][k := v]])
  }

  /**
   * `set_runtime_data` over the save as written: the same update, but the restore loop may
   * raise after the file is written or leave a bare message id behind.
   */
  function SetRuntimeDataAsWritten(data: RuntimeData, s: ServerId, k: Key, v: Value): (r: Result<Saved, StoreError>)
    ensures r.Success? ==>
              && SetRuntimeData(data, s, k, v).Success?
              && r.value.image == SetRuntimeData(data, s, k, v).value.image
    ensures r.Failure? && IdsAvailable(data) && (IsHandleKey(k) && Truthy(v) ==> HasId(v)) ==>
              && r.error.MissingReference?
              && r.error.image == SetRuntimeData(data, s, k, v).value.image
  {
    var d := EnsureGuild(data, s);
    SaveAsWritten(d[s := d[s][k := v]])
  }

  /** Store `table` as the guild's benefit table (the guild entry exists) and save. */
  function SaveTable(d: RuntimeData, s: ServerId, table: map<RoleId, int>): (r: Result<Saved, StoreError>)
    requires s in d
    ensures r.Success? ==> BenefitTable(r.value.memory, s) == table
    ensures r.Success? && Pruned(d) ==>
              && (forall t :: t in d && t != s ==> t in r.value.memory && r.value.memory[t] == d[t])
              && (forall j :: j != RoleBenefits ==> Get(r.value.memory, s, j) == Get(d, s, j))
  {
    Save(d[s := d[s][RoleBenefits := Table(table)]])
  }

  /**
   * `set_rolebenefit`: a positive benefit is upserted into the guild's table (created if
   * needed); otherwise the role is popped, which raises when the table or the role is absent.
   */
  function SetRoleBenefit(data: RuntimeData, s: ServerId, role: RoleId, benefit: int): (r: Result<Saved, StoreError>)
    ensures benefit > 0 && r.Success? ==>
              BenefitTable(r.value.memory, s) == BenefitTable(data, s)[role := benefit]
    ensures benefit <= 0 && r.Success? ==>
              role in BenefitTable(data, s) && BenefitTable(r.value.memory, s) == BenefitTable(data, s) - {role}
    ensures benefit <= 0 && role !in BenefitTable(data, s) ==> r.Failure?
    ensures r.Success? && Pruned(data) ==>
              && (forall t :: t in data && t != s ==> t in r.value.memory && r.value.memory[t] == data[t])
              && (forall j :: j != RoleBenefits ==> Get(r.value.memory, s, j) == Get(data, s, j))
  {
    var d := EnsureGuild(data, s);
    assert Pruned(data) ==> Pruned(d);
    assert forall j :: Get(d, s, j) == Get(data, s, j);
    var g := d[s];
    if benefit > 0 then
      if RoleBenefits in g && !g[RoleBenefits].Table? then Failure(NotATable)
      else
        var table := if RoleBenefits in g then g[RoleBenefits].benefits else map[];
        SaveTable(d, s, table[role := benefit])
    else if RoleBenefits !in g then Failure(MissingKey(d))
    else if !g[RoleBenefits].Table? then Failure(NotATable)
    else if role !in g[RoleBenefits].benefits then Failure(MissingKey(d))
    else SaveTable(d, s, g[RoleBenefits].benefits - {role})
  }

  /** Saving a state that a save produced changes nothing: a save is observably idempotent. */
  lemma SaveIdempotent(data: RuntimeData)
    requires Save(data).Success?
    ensures Save(Save(data).value.memory) == Save(data)
  {
    var sv := Save(data).value;
    var sv2 := Save(sv.memory).value;
    forall s | s in data ensures sv2.memory[s] == sv.memory[s] && sv2.image[s] == sv.image[s] {
      assert sv2.memory[s].Keys == sv.memory[s].Keys;
    }
    assert sv2.memory == sv.memory;
    assert sv2.image == sv.image;
  }

  /** A stored id resolved back into the live handle for its key, assuming the lookup succeeds. */
  function Resolve(k: Key, v: Value, channelResolved: bool): Value
  {
    if !v.IntValue? then v
    else match k
      case UserChannel => ChannelRef(v.n)
      case ModRole => RoleRef(v.n)
      case ReferenceNew => if channelResolved then MessageRef(v.n) else v
      case _ => v
  }

  /**
   * The resolution loop of `load_runtime_data` when every platform lookup succeeds: channel,
   * role and message ids become handles again; the message only when the guild's channel resolved.
   */
  function Rehydrate(image: RuntimeData): RuntimeData
  {
    map s | s in image :: map k | k in image[s] :: Resolve(k, image[s][k], UserChannel in image[s])
  }

  /**
   * The identifier round trip: rehydrating the image of a save yields exactly the state the
   * save keeps in memory, for a store whose open rounds all have a channel.
   */
  lemma RehydrateAfterSave(data: RuntimeData)
    requires WellTyped(data)
    requires forall s :: HasEntry(data, s, ReferenceNew) ==> HasEntry(data, s, UserChannel)
    ensures Save(data).Success?
    ensures Rehydrate(Save(data).value.image) == Save(data).value.memory
  {
    var sv := Save(data).value;
    var back := Rehydrate(sv.image);
    forall s | s in data ensures back[s] == sv.memory[s] {
      forall k | k in sv.memory[s] ensures back[s][k] == sv.memory[s][k] {
        if k == ReferenceNew {
          assert HasEntry(data, s, UserChannel);
        }
      }
    }
  }

  /** A treasure set now is still there after a save and a restart that reloads the image. */
  lemma TreasureSurvivesRestart(data: RuntimeData, s: ServerId, treasure: string)
    requires WellTyped(data) && |treasure| > 0
    requires forall t :: HasEntry(data, t, ReferenceNew) ==> HasEntry(data, t, UserChannel)
    ensures SetRuntimeData(data, s, Treasure, Text(treasure)).Success?
    ensures Get(Rehydrate(SetRuntimeData(data, s, Treasure, Text(treasure)).value.image), s, Treasure)
            == Text(treasure)
  {
    var d := EnsureGuild(data, s);
    var d2 := d[s := d[s][Treasure := Text(treasure)]];
    forall t | HasEntry(d2, t, ReferenceNew) ensures HasEntry(d2, t, UserChannel) {
      assert HasEntry(data, t, ReferenceNew);
    }
    assert WellTyped(d2);
    RehydrateAfterSave(d2);
  }

  /**
   * The restore loop as written agrees with the corrected one exactly when every guild has
   * either both a modrole and an open-round reference or neither.
   */
  lemma SaveAsWrittenAgreesIff(data: RuntimeData)
    requires IdsAvailable(data)
    ensures SaveAsWritten(data) == Save(data)
            <==> forall s :: s in data ==> (HasEntry(data, s, ModRole) <==> HasEntry(data, s, ReferenceNew))
  {
    if forall s :: s in data ==> (HasEntry(data, s, ModRole) <==> HasEntry(data, s, ReferenceNew)) {
      SaveAsWrittenAgrees(data);
    } else {
      var s :| s in data && !(HasEntry(data, s, ModRole) <==> HasEntry(data, s, ReferenceNew));
      SaveAsWrittenDiffers(data, s);
    }
  }

  lemma SaveAsWrittenAgrees(data: RuntimeData)
    requires IdsAvailable(data)
    requires forall s :: s in data ==> (HasEntry(data, s, ModRole) <==> HasEntry(data, s, ReferenceNew))
    ensures SaveAsWritten(data) == Save(data)
  {
    var p := Prune(data);
    assert forall s :: s in p ==> (ModRole in p[s] <==> ReferenceNew in p[s]);
    assert !exists s :: s in p && ModRole in p[s] && ReferenceNew !in p[s];
    var w := SaveAsWritten(data);
    assert w.Success?;
    forall s | s in p ensures w.value.memory[s] == p[s] {
      assert !(ReferenceNew in p[s] && ModRole !in p[s]);
    }
    assert w.value.memory == p;
  }

  lemma SaveAsWrittenDiffers(data: RuntimeData, s: ServerId)
    requires IdsAvailable(data)
    requires s in data && !(HasEntry(data, s, ModRole) <==> HasEntry(data, s, ReferenceNew))
    ensures SaveAsWritten(data) != Save(data)
  {
    var p := Prune(data);
    assert ModRole in p[s] <==> HasEntry(data, s, ModRole);
    assert ReferenceNew in p[s] <==> HasEntry(data, s, ReferenceNew);
    var w := SaveAsWritten(data);
    if w.Success? {
      assert ReferenceNew in p[s] && ModRole !in p[s];
      assert w.value.memory[s][ReferenceNew].IntValue?;
      assert HasId(Save(data).value.memory[s][ReferenceNew]);
    }
  }

  /**
   * As written, any guild holding a modrole and no open round makes the save raise: the
   * restore loop looks up that guild's reference, which was never recorded.
   */
  lemma SaveAsWrittenRaises(data: RuntimeData, s: ServerId)
    requires IdsAvailable(data)
    requires HasEntry(data, s, ModRole) && !HasEntry(data, s, ReferenceNew)
    ensures SaveAsWritten(data).Failure? && SaveAsWritten(data).error.MissingReference?
  {
    var p := Prune(data);
    assert s in p && ModRole in p[s] && ReferenceNew !in p[s];
  }

  /**
   * When the as-written save completes, channels, roles and every other attribute come back as
   * the corrected save gives them; only the open-round reference of a guild without a modrole
   * stays a bare id.
   */
  lemma SaveAsWrittenRestores(data: RuntimeData)
    requires SaveAsWritten(data).Success?
    ensures Save(data).Success?
    ensures SaveAsWritten(data).value.memory.Keys == data.Keys
    ensures forall s :: s in data ==>
              SaveAsWritten(data).value.memory[s].Keys == Save(data).value.memory[s].Keys
    ensures forall s, k :: s in data && k in Save(data).value.memory[s] && !(k == ReferenceNew && !HasEntry(data, s, ModRole))
              ==> SaveAsWritten(data).value.memory[s][k] == Save(data).value.memory[s][k]
    ensures forall s :: HasEntry(data, s, ReferenceNew) && !HasEntry(data, s, ModRole) ==>
              SaveAsWritten(data).value.memory[s][ReferenceNew] == IntValue(data[s][ReferenceNew].id)
  {
    var p := Prune(data);
    var image := Persist(p);
    var mem := SaveAsWritten(data).value.memory;
    assert Save(data).value.memory == p;
    forall s | s in data
      ensures mem[s] == if ReferenceNew in p[s] && ModRole !in p[s]
                        then p[s][ReferenceNew := image[s][ReferenceNew]] else p[s]
    {
    }
    forall s | HasEntry(data, s, ReferenceNew) && !HasEntry(data, s, ModRole)
      ensures mem[s][ReferenceNew] == IntValue(data[s][ReferenceNew].id)
    {
      assert ReferenceNew in p[s] && ModRole !in p[s];
      assert p[s][ReferenceNew] == data[s][ReferenceNew];
    }
    forall s, k | s in data && k in p[s] && !(k == ReferenceNew && !HasEntry(data, s, ModRole))
      ensures mem[s][k] == p[s][k]
    {
      assert ModRole in p[s] <==> HasEntry(data, s, ModRole);
    }
  }

  /** A guild with a modrole and no open round makes the save raise once the file is written. */
  lemma SaveAsWrittenRaisesWithoutRound()
    ensures var data := map[1 := map[ModRole := RoleRef(5)]];
            && SaveAsWritten(data).Failure? && SaveAsWritten(data).error.MissingReference?
            && Save(data).Success?
  {
    var data := map[1 := map[ModRole := RoleRef(5)]];
    assert ModRole in Prune(data)[1];
  }

  /**
   * As written, a guild with an open round and no modrole keeps the bare message id in memory;
   * unless that id is 0 (falsy, hence pruned), the next save fails on its `.id`.
   */
  lemma SaveAsWrittenStripsReference(data: RuntimeData, s: ServerId)
    requires SaveAsWritten(data).Success?
    requires HasEntry(data, s, ReferenceNew) && !HasEntry(data, s, ModRole) && data[s][ReferenceNew].MessageRef?
    ensures Get(SaveAsWritten(data).value.memory, s, ReferenceNew) == IntValue(data[s][ReferenceNew].id)
    ensures data[s][ReferenceNew].id != 0 ==> Save(SaveAsWritten(data).value.memory).Failure?
  {
    var p := Prune(data);
    assert ReferenceNew in p[s] && ModRole !in p[s];
    assert p[s][ReferenceNew] == data[s][ReferenceNew];
    var image := Persist(p);
    assert image[s][ReferenceNew] == IntValue(data[s][ReferenceNew].id);
    var mem := SaveAsWritten(data).value.memory;
    assert mem[s] == p[s][ReferenceNew := image[s][ReferenceNew]];
    if data[s][ReferenceNew].id != 0 {
      assert Truthy(mem[s][ReferenceNew]) && !HasId(mem[s][ReferenceNew]);
    }
  }

  /** The concrete case: guild 1 with a channel and an open round, and no modrole. */
  lemma SaveAsWrittenKeepsMessageId()
    ensures var data := map[1 := map[UserChannel := ChannelRef(10), ReferenceNew := MessageRef(20)]];
            && SaveAsWritten(data).Success?
            && Get(SaveAsWritten(data).value.memory, 1, ReferenceNew) == IntValue(20)
            && Save(SaveAsWritten(data).value.memory).Failure?
            && Get(Save(data).value.memory, 1, ReferenceNew) == MessageRef(20)
  {
    var data := map[1 := map[UserChannel := ChannelRef(10), ReferenceNew := MessageRef(20)]];
    var p := Prune(data);
    assert ReferenceNew in p[1] && ModRole !in p[1];
    assert forall s :: s in p ==> ModRole !in p[s];
    SaveAsWrittenStripsReference(data, 1);
  }

  /**
   * Storing a treasure right after the first `/setmodrole` of a guild raises as written,
   * once the file has been written; the corrected store succeeds.
   */
  lemma TreasureRaisesAsWritten()
    ensures var data := map[1 := map[ModRole := RoleRef(5)]];
            && SetRuntimeDataAsWritten(data, 1, Treasure, Text("x")).Failure?
            && SetRuntimeDataAsWritten(data, 1, Treasure, Text("x")).error.MissingReference?
            && SetRuntimeData(data, 1, Treasure, Text("x")).Success?
  {
    var data := map[1 := map[ModRole := RoleRef(5)]];
    var d := data[1 := data[1][Treasure := Text("x")]];
    assert EnsureGuild(data, 1) == data;
    assert HasEntry(d, 1, ModRole) && !HasEntry(d, 1, ReferenceNew);
    SaveAsWrittenRaises(d, 1);
  }

  /** Storing a new round's message in a guild without a modrole keeps only its id, as written. */
  lemma ReferenceStoredAsIdAsWritten(guild: ServerId, channel: int, posted: int)
    ensures var data := map[guild := map[UserChannel := ChannelRef(channel)]];
            var r := SetRuntimeDataAsWritten(data, guild, ReferenceNew, MessageRef(posted));
            r.Success? && Get(r.value.memory, guild, ReferenceNew) == IntValue(posted)
  {
    var data := map[guild := map[UserChannel := ChannelRef(channel)]];
    var d := data[guild := data[guild][ReferenceNew := MessageRef(posted)]];
    assert EnsureGuild(data, guild) == data;
    var p := Prune(d);
    assert ReferenceNew in p[guild] && ModRole !in p[guild];
    assert forall s :: s in p ==> ModRole !in p[s];
    assert SaveAsWritten(d).Success?;
    SaveAsWrittenStripsReference(d, guild);
  }

  /**
   * What the as-written `set_runtime_data` leaves in memory: every attribute of every guild is
   * what the corrected store gives, except the open-round reference of a guild left without a
   * modrole, which is the bare id. In particular the stored value reads back, unless it is a
   * new round's message in a guild without a modrole, which reads back as its id.
   */
  lemma SetRuntimeDataAsWrittenReadsBack(data: RuntimeData, s: ServerId, k: Key, v: Value)
    requires SetRuntimeDataAsWritten(data, s, k, v).Success?
    ensures SetRuntimeData(data, s, k, v).Success?
    ensures var m := SetRuntimeDataAsWritten(data, s, k, v).value.memory;
            var c := SetRuntimeData(data, s, k, v).value.memory;
            forall t, j :: !(j == ReferenceNew && !HasEntry(c, t, ModRole)) ==> Get(m, t, j) == Get(c, t, j)
    ensures var m := SetRuntimeDataAsWritten(data, s, k, v).value.memory;
            !(k == ReferenceNew && Truthy(v) && !HasEntry(data, s, ModRole)) ==>
              Get(m, s, k) == (if Truthy(v) then v else NoneValue)
    ensures var m := SetRuntimeDataAsWritten(data, s, k, v).value.memory;
            k == ReferenceNew && Truthy(v) && !HasEntry(data, s, ModRole) ==>
              HasId(v) && Get(m, s, k) == IntValue(v.id)
  {
    var d := EnsureGuild(data, s);
    var d2 := d[s := d[s][k := v]];
    SaveAsWrittenRestores(d2);
    var m := SaveAsWritten(d2).value.memory;
    var c := Save(d2).value.memory;
    forall t, j | !(j == ReferenceNew && !HasEntry(c, t, ModRole)) ensures Get(m, t, j) == Get(c, t, j) {
      if t in d2 {
        assert HasEntry(c, t, ModRole) <==> HasEntry(d2, t, ModRole);
      }
    }
    if k == ReferenceNew && Truthy(v) && !HasEntry(data, s, ModRole) {
      assert HasEntry(d2, s, ReferenceNew) && !HasEntry(d2, s, ModRole);
      assert HasId(v);
    } else if k == ReferenceNew {
      assert HasEntry(c, s, ModRole) <==> HasEntry(d2, s, ModRole);
    }
  }

  /** Benefit updates keep the store well typed and every stored benefit positive. */
  lemma SetRoleBenefitKeepsInvariants(data: RuntimeData, s: ServerId, role: RoleId, benefit: int)
    ensures var r := SetRoleBenefit(data, s, role, benefit);
            r.Success? && WellTyped(data) && PositiveBenefits(data) ==>
              WellTyped(r.value.memory) && PositiveBenefits(r.value.memory)
  {
    var d := EnsureGuild(data, s);
    var g := d[s];
    if WellTyped(data) && PositiveBenefits(data) && (RoleBenefits !in g || g[RoleBenefits].Table?) {
      var table := if RoleBenefits in g then g[RoleBenefits].benefits else map[];
      var table' := if benefit > 0 then table[role := benefit] else table - {role};
      var d' := d[s := g[RoleBenefits := Table(table')]];
      assert WellTyped(d');
      assert PositiveBenefits(d');
      StoredInvariantsSurviveSave(d');
    }
  }

  /** On a well-typed pruned store, an upsert or the removal of a present role always succeeds. */
  lemma SetRoleBenefitSucceeds(data: RuntimeData, s: ServerId, role: RoleId, benefit: int)
    requires WellTyped(data) && Pruned(data)
    requires benefit > 0 || role in BenefitTable(data, s)
    ensures SetRoleBenefit(data, s, role, benefit).Success?
  {
    var d := EnsureGuild(data, s);
    var g := d[s];
    assert RoleBenefits in g ==> g[RoleBenefits].Table?;
    var table := if RoleBenefits in g then g[RoleBenefits].benefits else map[];
    var table' := if benefit > 0 then table[role := benefit] else table - {role};
    var d' := d[s := g[RoleBenefits := Table(table')]];
    assert IdsAvailable(d');
  }

  lemma StoredInvariantsSurviveSave(data: RuntimeData)
    requires WellTyped(data) && PositiveBenefits(data)
    ensures Save(data).Success? ==> WellTyped(Save(data).value.memory) && PositiveBenefits(Save(data).value.memory)
  {
  }
}

=== FILE: types.dfy ===
/** Identifiers and the failure-carrying wrappers shared by every module of the model. */
module Types {

  /** Platform identifiers are plain integers (the `.id` of a user, role, guild, channel or message). */
  type UserId = int
  type RoleId = int
  type ServerId = int

  /** An optional value; `None` plays the part of Python's `None` where a lookup may find nothing. */
  datatype Option<+T> = None | Some(value: T)

  /** The outcome of an operation that the source lets raise: `Failure` stands for the exception. */
  datatype Result<+T, +E> = Success(value: T) | Failure(error: E)
}
